=== FILE: README.md ===
# Digital-twin replay engine and dashboard dispatch, in Dafny

This project models the core of a digital-twin dashboard that replays a recording of sensor
readings as if it were arriving live.

**The simulator** (`simulator.py`) keeps a clock over the recording, which is sorted by
timestamp `dt`. `start` loads and sorts the recording. It sets the clock to the earliest
timestamp, truncates the database file to its header, and then steps by zero seconds. Each
`step(seconds)` advances the clock. It appends every remaining row with `dt <= clock` to the
database and keeps only the rows with `dt > clock`. `read_db` returns the whole database.

**The dashboard callbacks** (`frontend.py`) hold five pieces of decision logic:

- which of the Start, Pause and Reset buttons wins, and so which timer interval is set;
- what a timer tick does: the first tick starts the replay and later ticks step by ten minutes;
- the tick counter kept in the browser;
- which training button wins;
- the 200-row window the charts zoom to.

Files:

- `outcomes.dfy`: `Option` and `Result`.
- `rows.dfy`: rows, the clock (`At(t)`, or `NaT` for the minimum of an empty table), time
  order, the sort, and the minimum and maximum timestamps.
- `simulator.dfy`: the replay state `Replay(clock, stream, db)`, the `due` and `pending`
  selections, `Step`, `Start`, and the object-level `StartSim`, `StepSim` and `ReadDb`.
- `replay.dfy`: replays of `start` followed by any sequence of steps (`Run`), with the
  invariant that the database followed by the stream is the sorted recording.
- `frontend.dfy`: the callback logic.

The main results follow. They hold for every tie order of the sort. "The sorted recording"
means whichever time-sorted permutation of the recording `sort_values('dt')` returns. Rows with
equal timestamps may come back in any order.

- Conservation (`RunConsistent`): after `start` and any sequence of steps, the database
  followed by the remaining stream equals the sorted recording. So no row is lost or emitted
  twice, and every remaining row is later than the clock.
- Due rows (`RunMaterializesDueRows`): with non-negative steps, the database is exactly the
  sorted rows up to the clock.
- Draining (`RunDrains`): once the clock reaches the last timestamp, the database is the whole
  sorted recording.
- Ticks (`TicksReplayRecording`): after tick `k`, when no Reset has won since page load, the
  dashboard holds exactly the rows up to the earliest timestamp plus `k` times 600 seconds.
- Reset (`ResetThenTicks`, `ResetTicksReplayRecording`): a winning Reset restarts the replay
  but not the tick number or the stored counter. After `j > 0` further ticks the dashboard
  holds exactly the rows up to the earliest timestamp plus `j` times 600 seconds, while the
  counter has gone up by `j` from wherever it stood.

Three behaviours of the code worth noting:

- The clock is not clamped at the last timestamp. Steps after the stream is exhausted still
  move the clock (`RunClock`, `DrainedStepOnlyMovesClock`).
- The zero-second step at the end of `start` flushes every row stamped with the earliest
  timestamp, so the database is never empty right after starting a non-empty recording
  (`Simulator.Start`).
- `step` accepts any duration, negative ones included, as `timedelta` does. The invariant that
  every database row is at or before the clock is therefore proved only for non-negative steps.

## Model

| member | source | states |
|---|---|---|
| Rows.SortByTime | simulator.py:13 | the stream is sorted by `dt` and holds exactly the recording's rows with their multiplicities |
| Rows.EarliestTime | simulator.py:14-15 | the start clock is `NaT` exactly when the recording is empty; otherwise it is a timestamp of the recording that no row precedes |
| Rows.SortingKeepsEarliest | simulator.py:13-15 | whatever order the sort gives rows with equal timestamps, the minimum read off the sorted stream is the minimum of the recording as loaded |
| Rows.TimeSortingExists | simulator.py:13 | every recording has a time-sorted permutation, so `start` can always run |
| Simulator.Advance | simulator.py:21 | the clock moves by exactly the given number of seconds; `NaT` stays `NaT` |
| Simulator.Due | simulator.py:24 | every selected row has `dt <= clock`; nothing is selected against `NaT` |
| Simulator.Pending | simulator.py:30 | every kept row has `dt > clock` |
| Simulator.NoneDue | simulator.py:24-26 | the due selection is empty exactly when no row has `dt <= clock` |
| Simulator.SelectionsPartition | simulator.py:24-30 | against a real clock, the due and pending selections together hold every row exactly once |
| Simulator.SortedSplitsAtClock | simulator.py:24-30 | on a sorted stream, the due rows are a prefix and the pending rows are the rest |
| Simulator.Step | simulator.py:20-32 | the clock advances by exactly `seconds` with no clamp; the database only grows; the appended rows are the remaining rows with `dt <= clock`, in stream order; the database is unchanged exactly when nothing is due, and then so is the stream; otherwise the stream becomes exactly the remaining rows with `dt > clock`, in stream order; every remaining row is later than the new clock (conservation is `StepConservesRows`) |
| Simulator.StepConservesRows | simulator.py:24-32 | whatever the order of the stream, a step neither loses nor duplicates a row: the database plus the stream is the same multiset before and after |
| Simulator.Truncated | simulator.py:12-17 | before the zero step, the stream is the sorted recording, the database is empty, and the clock read off the sorted stream is the minimum timestamp of the recording |
| Simulator.Start | simulator.py:11-18 | for every tie order of the sort, after `start` the clock is the minimum timestamp; the database followed by the stream is the sorted recording; the database holds only rows at the minimum timestamp, and at least one when the recording is non-empty; every remaining row is later |
| Simulator.StartSim | simulator.py:11-18 | `start` on any object gives a started simulator at the earliest timestamp over the sorted recording |
| Simulator.StepSim | simulator.py:20-21 | `step` fails exactly when the object was never started |
| Simulator.ReadDb | simulator.py:34-36 | `read_db` returns the whole database, and fails exactly when the simulator was never started |
| ReplayTheory.StartEstablishes | simulator.py:11-18 | right after `start`, the conservation invariant holds and every database row is at or before the clock |
| ReplayTheory.StepMovesPrefix | simulator.py:23-32 | on a consistent state, a step moves some prefix of the stream to the end of the database and changes nothing else |
| ReplayTheory.StepPreserves | simulator.py:20-32 | every step preserves conservation, sortedness, and "remaining rows are later than the clock" |
| ReplayTheory.StepKeepsSettled | simulator.py:20-28 | a non-negative step keeps every database row at or before the clock |
| ReplayTheory.RunConsistent | simulator.py:11-32 | for every tie order of the sort, after `start` and any steps, the database followed by the stream is the sorted recording, a permutation of it |
| ReplayTheory.RunNeverRewinds | simulator.py:14-21 | with non-negative steps, the clock of a non-empty recording never falls behind its earliest timestamp |
| ReplayTheory.RunClock | simulator.py:14-21 | after `start` and any steps, the clock is the minimum timestamp plus the total duration, with no clamp; it is `NaT` exactly for an empty recording |
| ReplayTheory.RunAppendOnly | simulator.py:27-28 | whatever further steps are taken, the database before them is a prefix of the database after them |
| ReplayTheory.RunSettled | simulator.py:20-28 | with non-negative steps, every database row is at or before the clock |
| ReplayTheory.SettledStateHoldsDueRows | simulator.py:24-30 | in a consistent state whose database rows are all at or before the clock, the database is exactly the sorted rows with `dt <= clock` and the stream is exactly the rest |
| ReplayTheory.RunMaterializesDueRows | simulator.py:11-32 | for every tie order of the sort and non-negative steps, the database is exactly the sorted rows with `dt <= clock` |
| ReplayTheory.RunDrains | simulator.py:20-32 | for every tie order of the sort and any steps, negative ones included, once the minimum timestamp plus the total duration reaches the last timestamp, the database is the whole sorted recording and the stream is empty |
| ReplayTheory.DrainedStepOnlyMovesClock | simulator.py:26-32 | once the stream is empty, a step changes only the clock |
| Frontend.Arbitrate | frontend.py:230-240 | a restart happens exactly when Reset is strictly newest; the interval is 5000 ms exactly when Start or Reset is strictly newest, and 3600000 ms otherwise, including every tie; a strictly newest Pause pauses without restarting |
| Frontend.NewestIsUnique | frontend.py:231-235 | at most one button is strictly newest, so the order of the tests does not matter |
| Frontend.OnControl | frontend.py:230-240 | a strictly newest Reset restarts the simulator and runs at 5000 ms; otherwise the simulator is untouched; Start runs, Pause pauses, and no strictly newest button pauses |
| Frontend.NextClock | frontend.py:255-260 | an absent counter becomes 0, and a present one goes up by exactly 1 |
| Frontend.OnTick | frontend.py:247-262 | tick 0 starts the replay; any later tick steps it by 600 seconds, and fails exactly when it was never started; the database returned is the whole database after that, which extends the one before |
| Frontend.LaterTick | frontend.py:248-260 | a later tick on a started simulator steps it by 600 seconds, returns the new database and bumps the counter |
| Frontend.TicksFollowRun | frontend.py:247-262 | when only the timer fires, with no winning Reset in between, after ticks 0 to `k` the counter reads `k`, the simulator has replayed `start` plus `k` steps of 600 seconds, and the stored database is its database |
| Frontend.TickAfter | frontend.py:247-262 | tick `k` is the timer callback applied to what tick `k - 1` stored |
| Frontend.TicksReplayRecording | frontend.py:247-262 | for every tie order of the sort, when no Reset has won since page load, after tick `k` the stored database is exactly the sorted recording's rows up to the minimum timestamp plus `600 k` seconds |
| Frontend.TickRunHoldsDueRows | simulator.py:11-32 | for every tie order of the sort, `start` followed by `k` steps of 600 seconds has written exactly the sorted rows up to the minimum timestamp plus `600 k` seconds |
| Frontend.ResetThenTicks | frontend.py:230-262 | a winning Reset restarts the shared simulator and leaves the stores alone; after `j` further ticks, whatever their numbers, the simulator has replayed `start` plus `j` steps of 600 seconds, the counter has gone up by exactly `j`, and from the first of those ticks on, the stored database is that replay's database |
| Frontend.TicksFromStart | frontend.py:247-262 | ticks numbered after the first, starting from a freshly started simulator, replay `start` plus one step of 600 seconds per tick, keep the stored database until the first of them, and count on from the stored counter |
| Frontend.ResetTicksReplayRecording | frontend.py:230-262 | for every tie order of the sort, after a winning Reset and `j > 0` further ticks, the stored database is exactly the sorted rows up to the minimum timestamp plus `600 j` seconds |
| Frontend.TrainDispatch | frontend.py:277-293 | training is requested on the stored rows exactly when the two timestamps differ; otherwise the reply is "No model currently trained." |
| Frontend.TrainDispatchSymmetric | frontend.py:277-290 | the two training buttons are interchangeable |
| Frontend.ViewWindow | frontend.py:215-218 | a window is set exactly when there are more than 200 rows, and both ends are among the last 200 timestamps |
| Frontend.WindowHoldsLastRows | frontend.py:215-218 | on the pivoted table's strictly increasing timestamps, a row lies inside the window exactly when it is one of the last 200 |

## Left out

- CSV input and output: `read_csv` with `parse_dates`, `to_csv` in append mode without a header, and the type changes a round trip through CSV causes. The files are row sequences, and the payload of a row is opaque.
- Timestamps are whole seconds. Pandas' nanosecond resolution and fractional `seconds` arguments are not modelled.
- Every row is assumed to carry a timestamp. In the code, a blank `dt` cell parses to `NaT`, so that row is neither due (line 24) nor pending (line 30). The first step that flushes anything, which can be `start`'s own zero step, drops it from the stream without writing it. Conservation (`RunConsistent`, `StepConservesRows`) therefore speaks only of recordings in which every row has a timestamp.
- ReplayTheory.RunClock: the clock is an unbounded integer. Pandas timestamps are 64-bit nanosecond counts, roughly the years 1677 to 2262, and `step` raises once the clock would leave that range. The model assumes the clock stays inside it, so "minimum plus the total duration" holds for every step only in the model.
- The tie order of the sort. `sort_values` is not stable by default, and a long-form recording has one row per sensor at each timestamp, so ties are the normal case. The model does not fix that order: `Start`, `Run`, `OnControl`, `OnTick` and `Ticks` take the sorted table as a parameter `sorted`, required only to be a time-sorted permutation of the recording (`Rows.IsTimeSortingOf`). Every whole-replay result holds for each such `sorted`. `Rows.SortByTime` is one concrete sort, which shows that such a table always exists.
- The default `seconds=5` of `step` (simulator.py:20) and `self.time_start` (simulator.py:14), which is set and never read. Every call passes an explicit duration: 0 from `start` and 600 from the timer callback.
- Simulator.ReadDb: a database file left over from an earlier process would be readable before `start`. The model assumes a fresh deployment where no such file exists.
- `pivot_sensors` (frontend.py:129-136): it aggregates floats with `pivot_table`. `Frontend.WindowHoldsLastRows` takes the pivoted timestamps as input and relies only on their being strictly increasing.
- Figure building, layout, styling, the HTTP server and the interval wiring in frontend.py: presentation only.
- Concurrency between callbacks. The callbacks are assumed to run one at a time. The development server started at frontend.py:297 may serve requests on several threads, so a tick and a Reset could both act on the shared simulator at once. `Ticks` composes timer ticks only. A Reset between ticks is modelled separately (`ResetThenTicks`): it restarts the replay while the tick number and the stored counter keep counting.
- Every call into the model object: `train_model`, `run_model`, `monitor_measures`, `monitor_model`, `reset`. modeling.py holds only stubs that return nothing. It also has no `reset` method, and its constructor takes no settings argument. `Frontend.OnControl` therefore restarts only the simulator on Reset. `Frontend.TrainDispatch` returns the training request, not the message the model would produce.
- Frontend.TrainDispatch: the case where the database store is still empty when a training button is pressed is not modelled. The stored rows are always a sequence.
- The `int(...)` conversions of the click timestamps: the timestamps are modelled as integers already.
- The test harness under `__main__` in simulator.py: it only prints.

=== FILE: frontend.dfy ===
/**
 The decision logic of the dashboard callbacks: which of Start, Pause and Reset wins, what a
 timer tick does to the simulator, the tick counter kept in the browser, which training button
 wins, and the window of the last 200 rows the charts zoom to. Layout, figures and the model
 itself are not modelled.
 */
module Frontend {
  import opened Rows
  import opened Outcomes
  import opened Simulator
  import opened ReplayTheory

  /** Timer interval while the replay runs: five seconds. */
  const RunningIntervalMs: int := 5 * 1000
  /** Timer interval while paused: one hour. */
  const PausedIntervalMs: int := 60 * 60 * 1000
  /** Simulated seconds per timer tick: ten minutes. */
  const TickSeconds: int := 60 * 10
  /** Number of trailing rows the charts zoom to. */
  const WindowRows: int := 200
  /** Reply of the training callback when neither button is newer. */
  const NoModelMessage: string := "No model currently trained."

  datatype Button = StartButton | PauseButton | ResetButton

  /** The `n_clicks_timestamp` of each control button; all start at 0. */
  datatype ClickStamps = ClickStamps(start: int, pause: int, reset: int)

  function Stamp(c: ClickStamps, b: Button): (s: int)
  {
    match b
    case StartButton => c.start
    case PauseButton => c.pause
    case ResetButton => c.reset
  }

  /** `b` was clicked strictly later than each of the other two buttons. */
  ghost predicate StrictlyNewest(c: ClickStamps, b: Button)
  {
    forall o: Button :: o != b ==> Stamp(c, o) < Stamp(c, b)
  }

  /** What the control callback decides: the new timer interval, and whether to restart. */
  datatype Arbitration = Arbitration(intervalMs: int, restart: bool)

  /** The control callback's choice: the strictly newest click wins; on any tie the replay pauses. */
  function Arbitrate(c: ClickStamps): (a: Arbitration)
    ensures a.restart <==> StrictlyNewest(c, ResetButton)
    ensures a.intervalMs == RunningIntervalMs <==> StrictlyNewest(c, StartButton) || StrictlyNewest(c, ResetButton)
    ensures a.intervalMs == PausedIntervalMs <==> !StrictlyNewest(c, StartButton) && !StrictlyNewest(c, ResetButton)
    ensures StrictlyNewest(c, PauseButton) ==> a == Arbitration(PausedIntervalMs, false)
  {
    assert Stamp(c, StartButton) == c.start && Stamp(c, PauseButton) == c.pause && Stamp(c, ResetButton) == c.reset;
    if c.start > c.pause && c.start > c.reset then Arbitration(RunningIntervalMs, false)
    else if c.pause > c.start && c.pause > c.reset then Arbitration(PausedIntervalMs, false)
    else if c.reset > c.start && c.reset > c.pause then Arbitration(RunningIntervalMs, true)
    else Arbitration(PausedIntervalMs, false)
  }

  /** At most one button can be strictly newest, so the order of the tests does not matter. */
  lemma NewestIsUnique(c: ClickStamps, a: Button, b: Button)
    requires StrictlyNewest(c, a) && StrictlyNewest(c, b)
    ensures a == b
  {
    assert a == b || Stamp(c, a) < Stamp(c, b);
    assert a == b || Stamp(c, b) < Stamp(c, a);
  }

  /** The outcome of the control callback: the timer interval and the simulator after it. */
  datatype Control = Control(intervalMs: int, sim: Sim)

  /** The control callback applied to the simulator: a winning Reset restarts the replay. */
  function OnControl(sim: Sim, recording: seq<Row>, sorted: seq<Row>, c: ClickStamps): (r: Control)
    requires IsTimeSortingOf(sorted, recording)
    ensures StrictlyNewest(c, ResetButton) ==> r.sim == StartSim(recording, sorted) && r.intervalMs == RunningIntervalMs
    ensures !StrictlyNewest(c, ResetButton) ==> r.sim == sim
    ensures StrictlyNewest(c, StartButton) ==> r.intervalMs == RunningIntervalMs
    ensures StrictlyNewest(c, PauseButton) ==> r.intervalMs == PausedIntervalMs
    ensures (forall b: Button :: !StrictlyNewest(c, b)) ==> r.intervalMs == PausedIntervalMs
  {
    var a := Arbitrate(c);
    Control(a.intervalMs, if a.restart then StartSim(recording, sorted) else sim)
  }

  /** The counter kept in the browser store: absent becomes 0, otherwise it goes up by one. */
  function NextClock(clock: Option<int>): (k: int)
    ensures clock.None? ==> k == 0
    ensures clock.Some? ==> k == clock.value + 1
  {
    match clock
    case None => 0
    case Some(v) => v + 1
  }

  /** What one timer tick stores: the simulator after it, the database it read, the counter. */
  datatype TickOutput = TickOutput(sim: Sim, database: seq<Row>, clock: int)

  /** The timer callback: the first tick starts the replay, every later tick steps it by ten
      minutes; then the whole database is read and the counter is advanced. */
  function OnTick(sim: Sim, recording: seq<Row>, sorted: seq<Row>, n: int, clock: Option<int>): (r: Result<TickOutput, Error>)
    requires IsTimeSortingOf(sorted, recording)
    ensures n == 0 ==> r.Ok? && r.value.sim == StartSim(recording, sorted)
    ensures n != 0 ==> (r.Ok? <==> sim.Started?)
    ensures n != 0 && r.Ok? ==> r.value.sim == Started(Step(sim.replay, TickSeconds))
    ensures n != 0 && r.Ok? ==> sim.replay.db <= r.value.database
    ensures r.Ok? ==> r.value.database == r.value.sim.replay.db && r.value.clock == NextClock(clock)
    ensures r.Err? ==> r.error == NotStarted
  {
    var advanced := if n != 0 then StepSim(sim, TickSeconds) else Ok(StartSim(recording, sorted));
    match advanced
    case Err(e) => Err(e)
    case Ok(s) =>
      match ReadDb(s)
      case Err(e) => Err(e)
      case Ok(db) => Ok(TickOutput(s, db, NextClock(clock)))
  }

  /** The dashboard from page load through tick `k` when only the timer fires: ticks numbered
      0, 1, ..., k, each fed the output of the previous one, with no winning Reset in between. */
  function Ticks(recording: seq<Row>, sorted: seq<Row>, k: nat): (r: Result<TickOutput, Error>)
    requires IsTimeSortingOf(sorted, recording)
  {
    if k == 0 then OnTick(Unstarted, recording, sorted, 0, None)
    else
      match Ticks(recording, sorted, k - 1)
      case Err(e) => Err(e)
      case Ok(o) => OnTick(o.sim, recording, sorted, k, Some(o.clock))
  }

  /** `k` ten-minute steps. */
  function TickSteps(k: nat): (steps: seq<int>)
    ensures |steps| == k
    ensures forall i :: 0 <= i < k ==> steps[i] == TickSeconds
  {
    seq(k, _ => TickSeconds)
  }

  lemma {:induction false} TickStepsSum(k: nat)
    ensures Sum(TickSteps(k)) == TickSeconds * k
  {
    if k > 0 {
      assert TickSteps(k)[..k - 1] == TickSteps(k - 1);
      TickStepsSum(k - 1);
    }
  }

  /** Tick `k` succeeds, its counter reads `k`, and the simulator has replayed `start` followed
      by `k` ten-minute steps. */
  lemma {:induction false} TicksFollowRun(recording: seq<Row>, sorted: seq<Row>, k: nat)
    requires IsTimeSortingOf(sorted, recording)
    ensures var r := Run(recording, sorted, TickSteps(k));
      Ticks(recording, sorted, k) == Ok(TickOutput(Started(r), r.db, k))
  {
    if k > 0 {
      TicksFollowRun(recording, sorted, k - 1);
      TicksFollowRunStep(recording, sorted, k);
    }
  }

  /** The inductive step of `TicksFollowRun`: one more tick extends the replay by one step. */
  lemma TicksFollowRunStep(recording: seq<Row>, sorted: seq<Row>, k: nat)
    requires IsTimeSortingOf(sorted, recording)
    requires k > 0
    requires var r := Run(recording, sorted, TickSteps(k - 1));
      Ticks(recording, sorted, k - 1) == Ok(TickOutput(Started(r), r.db, k - 1))
    ensures var r := Run(recording, sorted, TickSteps(k));
      Ticks(recording, sorted, k) == Ok(TickOutput(Started(r), r.db, k))
  {
    var r := Run(recording, sorted, TickSteps(k - 1));
    var prev := TickOutput(Started(r), r.db, k - 1);
    TickAfter(recording, sorted, k, prev);
    LaterTick(prev, recording, sorted, k, r);
    assert TickSteps(k) == TickSteps(k - 1) + [TickSeconds];
    RunExtends(recording, sorted, TickSteps(k - 1), TickSeconds);
  }

  /** Tick `k` is the timer callback applied to the output of tick `k - 1`. */
  lemma TickAfter(recording: seq<Row>, sorted: seq<Row>, k: nat, prev: TickOutput)
    requires IsTimeSortingOf(sorted, recording)
    requires k > 0 && Ticks(recording, sorted, k - 1) == Ok(prev)
    ensures Ticks(recording, sorted, k) == OnTick(prev.sim, recording, sorted, k, Some(prev.clock))
  {
  }

  /** A tick after the first steps the running replay by ten minutes and bumps the counter. */
  lemma LaterTick(prev: TickOutput, recording: seq<Row>, sorted: seq<Row>, k: int, r: Replay)
    requires IsTimeSortingOf(sorted, recording)
    requires k != 0 && prev.sim == Started(r)
    ensures OnTick(prev.sim, recording, sorted, k, Some(prev.clock))
         == Ok(TickOutput(Started(Step(r, TickSeconds)), Step(r, TickSeconds).db, prev.clock + 1))
  {
  }

  /** After tick `k`, with no winning Reset since page load, the stored database is exactly the
      recording's rows up to the earliest timestamp plus `k` times ten minutes, in time order. */
  lemma TicksReplayRecording(recording: seq<Row>, sorted: seq<Row>, k: nat)
    requires IsTimeSortingOf(sorted, recording)
    requires recording != []
    ensures Ticks(recording, sorted, k).Ok?
    ensures Ticks(recording, sorted, k).value.database == Due(sorted, At(MinDt(recording) + TickSeconds * k))
  {
    TicksFollowRun(recording, sorted, k);
    TickRunHoldsDueRows(recording, sorted, k);
  }

  /** `start` followed by `k` ten-minute steps has written exactly the rows up to the earliest
      timestamp plus `k` times ten minutes. */
  lemma TickRunHoldsDueRows(recording: seq<Row>, sorted: seq<Row>, k: nat)
    requires IsTimeSortingOf(sorted, recording)
    requires recording != []
    ensures Run(recording, sorted, TickSteps(k)).db == Due(sorted, At(MinDt(recording) + TickSeconds * k))
  {
    var steps := TickSteps(k);
    RunMaterializesDueRows(recording, sorted, steps);
    RunClock(recording, sorted, steps);
    TickStepsSum(k);
  }

  /** Timer ticks numbered `first`, `first + 1`, ..., `first + j - 1`, starting from the stored
      output `out` and each fed the output of the previous one. */
  function TicksFrom(out: TickOutput, recording: seq<Row>, sorted: seq<Row>, first: int, j: nat): (r: Result<TickOutput, Error>)
    requires IsTimeSortingOf(sorted, recording)
  {
    if j == 0 then Ok(out)
    else
      match TicksFrom(out, recording, sorted, first, j - 1)
      case Err(e) => Err(e)
      case Ok(o) => OnTick(o.sim, recording, sorted, first + j - 1, Some(o.clock))
  }

  /** A winning Reset restarts the shared simulator but leaves the tick number and the stored
      counter alone. After `j` more ticks the simulator has replayed `start` followed by `j`
      ten-minute steps, while the counter has gone up by `j` from wherever it stood; from the
      first of those ticks on, the stored database is that replay's database. */
  lemma ResetThenTicks(out: TickOutput, recording: seq<Row>, sorted: seq<Row>, c: ClickStamps, first: int, j: nat)
    requires IsTimeSortingOf(sorted, recording)
    requires StrictlyNewest(c, ResetButton) && first > 0
    ensures var reset := out.(sim := OnControl(out.sim, recording, sorted, c).sim);
      var t := TicksFrom(reset, recording, sorted, first, j);
      var r := Run(recording, sorted, TickSteps(j));
      && t.Ok?
      && t.value.sim == Started(r)
      && t.value.clock == out.clock + j
      && (j > 0 ==> t.value.database == r.db)
  {
    var reset := out.(sim := OnControl(out.sim, recording, sorted, c).sim);
    TicksFromStart(reset, recording, sorted, first, j);
  }

  /** `j` ticks from the stored output `out` hold the replay of `start` followed by `j`
      ten-minute steps, store its database once at least one tick has run, and count `j` on
      from the stored counter. */
  ghost predicate TicksFromReplay(out: TickOutput, recording: seq<Row>, sorted: seq<Row>, first: int, j: nat)
    requires IsTimeSortingOf(sorted, recording)
  {
    var r := Run(recording, sorted, TickSteps(j));
    TicksFrom(out, recording, sorted, first, j)
      == Ok(TickOutput(Started(r), if j == 0 then out.database else r.db, out.clock + j))
  }

  /** Ticks numbered from `first > 0` on (every tick after page load has a positive number),
      starting from a freshly started simulator, replay `start` followed by one ten-minute step
      per tick. */
  lemma {:induction false} TicksFromStart(out: TickOutput, recording: seq<Row>, sorted: seq<Row>, first: int, j: nat)
    requires IsTimeSortingOf(sorted, recording)
    requires out.sim == StartSim(recording, sorted) && first > 0
    ensures TicksFromReplay(out, recording, sorted, first, j)
  {
    if j == 0 {
      NoTicksFrom(out, recording, sorted, first);
    } else {
      TicksFromStart(out, recording, sorted, first, j - 1);
      TicksFromStartStep(out, recording, sorted, first, j);
    }
  }

  /** The inductive step of `TicksFromStart`: one more tick extends the replay by one step. */
  lemma TicksFromStartStep(out: TickOutput, recording: seq<Row>, sorted: seq<Row>, first: int, j: nat)
    requires IsTimeSortingOf(sorted, recording)
    requires j > 0 && first > 0
    requires TicksFromReplay(out, recording, sorted, first, j - 1)
    ensures TicksFromReplay(out, recording, sorted, first, j)
  {
    var r := Run(recording, sorted, TickSteps(j - 1));
    TickFromStep(out, recording, sorted, first, j, r, if j == 1 then out.database else r.db);
    assert TickSteps(j) == TickSteps(j - 1) + [TickSeconds];
    RunExtends(recording, sorted, TickSteps(j - 1), TickSeconds);
  }

  /** With no ticks, the stored output stays as it was, and its simulator is the replay of
      `start` alone. */
  lemma NoTicksFrom(out: TickOutput, recording: seq<Row>, sorted: seq<Row>, first: int)
    requires IsTimeSortingOf(sorted, recording)
    requires out.sim == StartSim(recording, sorted)
    ensures TicksFromReplay(out, recording, sorted, first, 0)
  {
    assert TickSteps(0) == [];
  }

  /** A tick numbered after the first, following stored output that holds a started replay
      `r`, steps `r` by ten minutes, stores its database and bumps the counter. */
  lemma TickFromStep(out: TickOutput, recording: seq<Row>, sorted: seq<Row>, first: int, j: nat, r: Replay, db: seq<Row>)
    requires IsTimeSortingOf(sorted, recording)
    requires j > 0 && first > 0
    requires TicksFrom(out, recording, sorted, first, j - 1) == Ok(TickOutput(Started(r), db, out.clock + j - 1))
    ensures TicksFrom(out, recording, sorted, first, j)
      == Ok(TickOutput(Started(Step(r, TickSeconds)), Step(r, TickSeconds).db, out.clock + j))
  {
    var prev := TickOutput(Started(r), db, out.clock + j - 1);
    TickFromAfter(out, recording, sorted, first, j, prev);
    LaterTick(prev, recording, sorted, first + j - 1, r);
  }

  /** Tick `first + j - 1` is the timer callback applied to what the tick before it stored. */
  lemma TickFromAfter(out: TickOutput, recording: seq<Row>, sorted: seq<Row>, first: int, j: nat, prev: TickOutput)
    requires IsTimeSortingOf(sorted, recording)
    requires j > 0 && TicksFrom(out, recording, sorted, first, j - 1) == Ok(prev)
    ensures TicksFrom(out, recording, sorted, first, j) == OnTick(prev.sim, recording, sorted, first + j - 1, Some(prev.clock))
  {
  }

  /** After a winning Reset and `j > 0` further ticks, the stored database is exactly the
      recording's rows up to the earliest timestamp plus `j` times ten minutes, whatever the tick
      number and the counter read. */
  lemma ResetTicksReplayRecording(out: TickOutput, recording: seq<Row>, sorted: seq<Row>, c: ClickStamps, first: int, j: nat)
    requires IsTimeSortingOf(sorted, recording)
    requires StrictlyNewest(c, ResetButton) && first > 0 && j > 0 && recording != []
    ensures var reset := out.(sim := OnControl(out.sim, recording, sorted, c).sim);
      var t := TicksFrom(reset, recording, sorted, first, j);
      t.Ok? && t.value.database == Due(sorted, At(MinDt(recording) + TickSeconds * j))
  {
    ResetThenTicks(out, recording, sorted, c, first, j);
    TickRunHoldsDueRows(recording, sorted, j);
  }

  /** What the training callback asks for: train on the stored rows, or reply with a message. */
  datatype TrainRequest = Train(data: seq<Row>) | Decline(message: string)

  /** The training callback: either button being strictly newer than the other trains (both
      branches do the same thing); equal timestamps decline. */
  function TrainDispatch(nTrain: int, nTrainStruct: int, database: seq<Row>): (r: TrainRequest)
    ensures r.Train? <==> nTrain != nTrainStruct
    ensures r.Train? ==> r.data == database
    ensures r.Decline? ==> r.message == NoModelMessage
  {
    if nTrain > nTrainStruct then Train(database)
    else if nTrainStruct > nTrain then Train(database)
    else Decline(NoModelMessage)
  }

  /** Which of the two training buttons was pressed last does not matter. */
  lemma TrainDispatchSymmetric(nTrain: int, nTrainStruct: int, database: seq<Row>)
    ensures TrainDispatch(nTrain, nTrainStruct, database) == TrainDispatch(nTrainStruct, nTrain, database)
  {
  }

  predicate StrictlyIncreasing(times: seq<int>)
  {
    forall i, j :: 0 <= i < j < |times| ==> times[i] < times[j]
  }

  /** The x-axis range the three charts zoom to: set only with more than 200 rows, from the
      200th-from-last timestamp to the last. */
  function ViewWindow(times: seq<int>): (w: Option<(int, int)>)
    ensures w.Some? <==> |times| > WindowRows
    ensures w.Some? ==> w.value.0 in times[|times| - WindowRows..] && w.value.1 in times[|times| - WindowRows..]
  {
    if |times| > WindowRows then Some((times[|times| - WindowRows], times[|times| - 1]))
    else None
  }

  /** On the pivoted table's timestamps (one per distinct time, ascending), the window contains
      exactly the last 200 rows. */
  lemma WindowHoldsLastRows(times: seq<int>)
    requires StrictlyIncreasing(times) && |times| > WindowRows
    ensures var w := ViewWindow(times).value;
      forall i :: 0 <= i < |times| ==> (w.0 <= times[i] <= w.1 <==> |times| - WindowRows <= i)
  {
    var w := ViewWindow(times).value;
    forall i | 0 <= i < |times| ensures w.0 <= times[i] <= w.1 <==> |times| - WindowRows <= i {
      if i < |times| - WindowRows {
        assert times[i] < times[|times| - WindowRows];
      }
    }
  }
}

=== FILE: outcomes.dfy ===
/** Failure-carrying wrappers shared by the simulator and the dashboard callbacks. */
module Outcomes {

  /** A value that may be absent, such as a Dash store that has never been written. */
  datatype Option<+T> = None | Some(value: T)

  /** The outcome of an operation that either succeeds with a value or fails with an error. */
  datatype Result<+T, +E> = Ok(value: T) | Err(error: E)
}

=== FILE: replay.dfy ===
/**
 Properties of whole replays: the state after `start` followed by any sequence of steps.
 The invariant `Consistent` says the database followed by the remaining stream is always the
 sorted recording and that every remaining row is later than the clock.
 */
module ReplayTheory {
  import opened Rows
  import opened Simulator

  /** The invariant of a started simulator replaying the sorted recording `sorted`. */
  ghost predicate Consistent(r: Replay, sorted: seq<Row>)
  {
    && r.db + r.stream == sorted
    && SortedByTime(sorted)
    && (r.clock.At? ==> forall i :: 0 <= i < |r.stream| ==> r.stream[i].dt > r.clock.t)
    && (r.clock.NaT? ==> r.db == [] && r.stream == [])
  }

  /** Every database row is not later than the clock; this holds while the clock never moves back. */
  ghost predicate Settled(r: Replay)
  {
    r.clock.At? ==> forall i :: 0 <= i < |r.db| ==> r.db[i].dt <= r.clock.t
  }

  /** The total duration of a sequence of steps. */
  function Sum(steps: seq<int>): (total: int)
    ensures (forall i :: 0 <= i < |steps| ==> steps[i] >= 0) ==> total >= 0
  {
    if steps == [] then 0 else Sum(steps[..|steps| - 1]) + steps[|steps| - 1]
  }

  /** `start()` followed by `step(steps[0])`, `step(steps[1])`, and so on, where `start` sorts
      `recording` into `sorted`. */
  function Run(recording: seq<Row>, sorted: seq<Row>, steps: seq<int>): (r: Replay)
    requires IsTimeSortingOf(sorted, recording)
  {
    if steps == [] then Start(recording, sorted)
    else Step(Run(recording, sorted, steps[..|steps| - 1]), steps[|steps| - 1])
  }

  /** One more step after a replay is a replay with one more step. */
  lemma RunExtends(recording: seq<Row>, sorted: seq<Row>, steps: seq<int>, seconds: int)
    requires IsTimeSortingOf(sorted, recording)
    ensures Run(recording, sorted, steps + [seconds]) == Step(Run(recording, sorted, steps), seconds)
  {
    assert (steps + [seconds])[..|steps|] == steps;
  }

  /** A suffix of a time-sorted table is time-sorted. */
  lemma SortedSuffix(a: seq<Row>, b: seq<Row>)
    requires SortedByTime(a + b)
    ensures SortedByTime(b)
  {
    forall i, j | 0 <= i < j < |b| ensures b[i].dt <= b[j].dt {
      assert b[i] == (a + b)[|a| + i] && b[j] == (a + b)[|a| + j];
    }
  }

  /** Right after `start` the invariant holds and the database is settled. */
  lemma StartEstablishes(recording: seq<Row>, sorted: seq<Row>)
    requires IsTimeSortingOf(sorted, recording)
    ensures Consistent(Start(recording, sorted), sorted)
    ensures Settled(Start(recording, sorted))
  {
    var r := Start(recording, sorted);
    if r.clock.NaT? {
      assert recording == [];
    }
  }

  /** On a consistent state a step moves a prefix of the remaining stream, and nothing else,
      to the end of the database. */
  lemma {:induction false} StepMovesPrefix(r: Replay, sorted: seq<Row>, seconds: int)
    requires Consistent(r, sorted)
    ensures var r' := Step(r, seconds);
      exists k :: 0 <= k <= |r.stream| && r'.db == r.db + r.stream[..k] && r'.stream == r.stream[k..]
  {
    var r' := Step(r, seconds);
    if r.clock.NaT? {
      assert r'.db == r.db + r.stream[..0] && r'.stream == r.stream[0..];
    } else {
      SortedSuffix(r.db, r.stream);
      SortedSplitsAtClock(r.stream, r'.clock);
      var k := |Due(r.stream, r'.clock)|;
      if k > 0 {
        assert r'.stream == Pending(r.stream, r'.clock) == r.stream[k..];
      } else {
        assert r'.db == r.db + r.stream[..0] && r'.stream == r.stream[0..];
      }
    }
  }

  /** Moving the first `k` rows of the stream to the end of the database keeps their concatenation. */
  lemma MoveAcross(db: seq<Row>, stream: seq<Row>, k: int)
    requires 0 <= k <= |stream|
    ensures (db + stream[..k]) + stream[k..] == db + stream
  {
    assert stream[..k] + stream[k..] == stream;
  }

  /** Every step preserves the invariant. */
  lemma {:induction false} StepPreserves(r: Replay, sorted: seq<Row>, seconds: int)
    requires Consistent(r, sorted)
    ensures Consistent(Step(r, seconds), sorted)
  {
    var r' := Step(r, seconds);
    StepMovesPrefix(r, sorted, seconds);
    var k :| 0 <= k <= |r.stream| && r'.db == r.db + r.stream[..k] && r'.stream == r.stream[k..];
    MoveAcross(r.db, r.stream, k);
    if r.clock.NaT? {
      assert r' == r;
    }
  }

  /** A step by a non-negative duration keeps every database row at or before the clock. */
  lemma StepKeepsSettled(r: Replay, seconds: int)
    requires Settled(r) && seconds >= 0
    ensures Settled(Step(r, seconds))
  {
    var r' := Step(r, seconds);
    if r.clock.At? {
      forall i | 0 <= i < |r'.db| ensures r'.db[i].dt <= r'.clock.t {
        if i >= |r.db| {
          assert r'.db[i] == Due(r.stream, r'.clock)[i - |r.db|];
        }
      }
    }
  }

  /** Conservation: after any sequence of steps, the database followed by the remaining stream
      is exactly the sorted recording, so no row was lost or emitted twice. */
  lemma {:induction false} RunConsistent(recording: seq<Row>, sorted: seq<Row>, steps: seq<int>)
    requires IsTimeSortingOf(sorted, recording)
    ensures Consistent(Run(recording, sorted, steps), sorted)
    ensures multiset(Run(recording, sorted, steps).db + Run(recording, sorted, steps).stream) == multiset(recording)
    decreases |steps|
  {
    if steps == [] {
      StartEstablishes(recording, sorted);
    } else {
      RunConsistent(recording, sorted, steps[..|steps| - 1]);
      StepPreserves(Run(recording, sorted, steps[..|steps| - 1]), sorted, steps[|steps| - 1]);
    }
  }

  /** The clock after a replay is the earliest timestamp plus the total duration stepped,
      with no clamp at the last timestamp of the recording. */
  lemma {:induction false} RunClock(recording: seq<Row>, sorted: seq<Row>, steps: seq<int>)
    requires IsTimeSortingOf(sorted, recording)
    ensures Run(recording, sorted, steps).clock.NaT? <==> recording == []
    ensures recording != [] ==> Run(recording, sorted, steps).clock == At(MinDt(recording) + Sum(steps))
    decreases |steps|
  {
    if steps == [] {
      assert Run(recording, sorted, steps).clock == EarliestTime(recording);
    } else {
      var init := steps[..|steps| - 1];
      RunClock(recording, sorted, init);
      StepClock(Run(recording, sorted, init), steps[|steps| - 1], Run(recording, sorted, steps));
    }
  }

  /** With non-negative steps the clock never falls behind the earliest timestamp of the
      recording: the replay only moves forward from where `start` put it. */
  lemma RunNeverRewinds(recording: seq<Row>, sorted: seq<Row>, steps: seq<int>)
    requires IsTimeSortingOf(sorted, recording)
    requires forall i :: 0 <= i < |steps| ==> steps[i] >= 0
    requires recording != []
    ensures Run(recording, sorted, steps).clock.At?
    ensures Run(recording, sorted, steps).clock.t >= MinDt(recording)
  {
    RunClock(recording, sorted, steps);
  }

  /** The clock after one step, stated over a named successor state. */
  lemma StepClock(r: Replay, seconds: int, r': Replay)
    requires r' == Step(r, seconds)
    ensures r'.clock == Advance(r.clock, seconds)
  {
  }

  /** The database only grows: whatever further steps are taken, the database before them is
      a prefix of the database after them. */
  lemma {:induction false} RunAppendOnly(recording: seq<Row>, sorted: seq<Row>, steps: seq<int>, more: seq<int>)
    requires IsTimeSortingOf(sorted, recording)
    ensures Run(recording, sorted, steps).db <= Run(recording, sorted, steps + more).db
    decreases |more|
  {
    if more == [] {
      assert steps + more == steps;
    } else {
      var init, last := more[..|more| - 1], more[|more| - 1];
      RunAppendOnly(recording, sorted, steps, init);
      SplitLast(steps, more);
      ExtendPrefix(recording, sorted, steps + init, last, Run(recording, sorted, steps).db);
    }
  }

  lemma SplitLast(steps: seq<int>, more: seq<int>)
    requires more != []
    ensures steps + more == (steps + more[..|more| - 1]) + [more[|more| - 1]]
  {
    assert more == more[..|more| - 1] + [more[|more| - 1]];
  }

  /** A prefix of the database before a step is a prefix of the database after it. */
  lemma PrefixThenStep(before: seq<Row>, r: Replay, seconds: int)
    requires before <= r.db
    ensures before <= Step(r, seconds).db
  {
    var r' := Step(r, seconds);
    assert r'.db[..|r.db|] == r.db;
  }

  /** A prefix of the database after some steps stays a prefix after one more step. */
  lemma ExtendPrefix(recording: seq<Row>, sorted: seq<Row>, steps: seq<int>, seconds: int, before: seq<Row>)
    requires IsTimeSortingOf(sorted, recording)
    requires before <= Run(recording, sorted, steps).db
    ensures before <= Run(recording, sorted, steps + [seconds]).db
  {
    RunExtends(recording, sorted, steps, seconds);
    PrefixThenStep(before, Run(recording, sorted, steps), seconds);
  }

  /** In a consistent, settled state the database is exactly the rows of the sorted recording
      not later than the clock, and the stream is exactly the rows later than it. */
  lemma SettledStateHoldsDueRows(r: Replay, sorted: seq<Row>)
    requires Consistent(r, sorted) && Settled(r)
    ensures r.db == Due(sorted, r.clock)
    ensures r.stream == Pending(sorted, r.clock)
  {
    if r.clock.At? {
      SplitAt(r.db, r.stream, r.clock);
    }
  }

  /** With non-negative steps the database is exactly the rows of the sorted recording whose
      timestamp is not later than the clock. */
  lemma RunMaterializesDueRows(recording: seq<Row>, sorted: seq<Row>, steps: seq<int>)
    requires IsTimeSortingOf(sorted, recording)
    requires forall i :: 0 <= i < |steps| ==> steps[i] >= 0
    ensures Run(recording, sorted, steps).db == Due(sorted, Run(recording, sorted, steps).clock)
  {
    RunSettled(recording, sorted, steps);
    RunConsistent(recording, sorted, steps);
    SettledStateHoldsDueRows(Run(recording, sorted, steps), sorted);
  }

  /** With non-negative steps every database row is at or before the clock. */
  lemma {:induction false} RunSettled(recording: seq<Row>, sorted: seq<Row>, steps: seq<int>)
    requires IsTimeSortingOf(sorted, recording)
    requires forall i :: 0 <= i < |steps| ==> steps[i] >= 0
    ensures Settled(Run(recording, sorted, steps))
    decreases |steps|
  {
    if steps == [] {
      StartEstablishes(recording, sorted);
    } else {
      RunSettled(recording, sorted, steps[..|steps| - 1]);
      StepKeepsSettled(Run(recording, sorted, steps[..|steps| - 1]), steps[|steps| - 1]);
    }
  }

  /** Once the total duration reaches the last timestamp, the whole sorted recording has been
      written to the database and nothing remains to replay. */
  lemma RunDrains(recording: seq<Row>, sorted: seq<Row>, steps: seq<int>)
    requires IsTimeSortingOf(sorted, recording)
    requires recording != [] && MinDt(recording) + Sum(steps) >= MaxDt(recording)
    ensures Run(recording, sorted, steps).db == sorted
    ensures Run(recording, sorted, steps).stream == []
  {
    RunClock(recording, sorted, steps);
    RunConsistent(recording, sorted, steps);
    var r := Run(recording, sorted, steps);
    var c := r.clock;
    forall i | 0 <= i < |sorted| ensures IsDue(sorted[i], c) {
      assert sorted[i] in multiset(recording);
    }
    AllDue(sorted, c);
    forall i | 0 <= i < |r.db| ensures IsDue(r.db[i], c) {
      assert r.db[i] == sorted[i];
    }
    SplitAt(r.db, r.stream, c);
  }

  /** Once the stream is exhausted, a step only moves the clock. */
  lemma DrainedStepOnlyMovesClock(r: Replay, seconds: int)
    requires r.stream == []
    ensures Step(r, seconds) == r.(clock := Advance(r.clock, seconds))
  {
  }
}

=== FILE: rows.dfy ===
/**
 The recording and the database are tables of rows ordered by a timestamp column `dt`.
 This module defines rows, the simulation clock, time-ordering, and the sort that
 `Simulator.start` applies to the recording.
 */
module Rows {

  /** One line of the recording: its timestamp in whole seconds and the rest of the line,
      which the replay engine never inspects. */
  datatype Row = Row(dt: int, payload: string)

  /** The simulation clock. `NaT` is the "not a time" value pandas yields as the minimum
      timestamp of an empty table; adding a duration to it gives `NaT` again, and every
      comparison against it is false. */
  datatype Clock = At(t: int) | NaT

  /** Rows in non-decreasing timestamp order. */
  predicate SortedByTime(s: seq<Row>)
  {
    forall i, j :: 0 <= i < j < |s| ==> s[i].dt <= s[j].dt
  }

  /** `r` holds exactly the rows of `s`, with their multiplicities, in time order:
      any result of a (not necessarily stable) sort by `dt`. */
  ghost predicate IsTimeSortingOf(r: seq<Row>, s: seq<Row>)
  {
    SortedByTime(r) && multiset(r) == multiset(s)
  }

  /** Inserts `x` into a time-sorted sequence after every row that is not later than it. */
  function Insert(x: Row, s: seq<Row>): (r: seq<Row>)
    ensures multiset(r) == multiset(s) + multiset{x}
    ensures |r| == |s| + 1
  {
    if s == [] then [x]
    else if x.dt < s[0].dt then [x] + s
    else
      assert s == [s[0]] + s[1..];
      [s[0]] + Insert(x, s[1..])
  }

  /** Inserting into a time-sorted table keeps it time-sorted. */
  lemma {:induction false} InsertKeepsSorted(x: Row, s: seq<Row>)
    requires SortedByTime(s)
    ensures SortedByTime(Insert(x, s))
  {
    if s == [] {
    } else if x.dt < s[0].dt {
      ConsSorted(x, s);
    } else {
      var tail := s[1..];
      TailSorted(s);
      InsertKeepsSorted(x, tail);
      var rest := Insert(x, tail);
      forall i | 0 <= i < |rest| ensures s[0].dt <= rest[i].dt {
        assert rest[i] in multiset(tail) + multiset{x};
        if rest[i] != x {
          var j :| 0 <= j < |tail| && tail[j] == rest[i];
          assert s[j + 1] == rest[i];
        }
      }
      ConsSorted(s[0], rest);
    }
  }

  /** The recording sorted by timestamp (`sort_values('dt')`). */
  function SortByTime(s: seq<Row>): (r: seq<Row>)
    ensures SortedByTime(r)
    ensures multiset(r) == multiset(s)
    ensures |r| == |s|
  {
    if s == [] then []
    else
      assert s == [s[0]] + s[1..];
      var rest := SortByTime(s[1..]);
      InsertKeepsSorted(s[0], rest);
      Insert(s[0], rest)
  }

  /** The rows after the first of a time-sorted table are time-sorted. */
  lemma TailSorted(s: seq<Row>)
    requires SortedByTime(s) && |s| > 0
    ensures SortedByTime(s[1..])
  {
    forall i, j | 0 <= i < j < |s| - 1 ensures s[1..][i].dt <= s[1..][j].dt {
      assert s[1..][i] == s[i + 1] && s[1..][j] == s[j + 1];
    }
  }

  /** A row not later than any row of a time-sorted table can be put in front of it. */
  lemma ConsSorted(h: Row, t: seq<Row>)
    requires SortedByTime(t)
    requires forall i :: 0 <= i < |t| ==> h.dt <= t[i].dt
    ensures SortedByTime([h] + t)
  {
    var s := [h] + t;
    forall i, j | 0 <= i < j < |s| ensures s[i].dt <= s[j].dt {
      assert s[j] == t[j - 1];
      if i > 0 {
        assert s[i] == t[i - 1];
      }
    }
  }

  /** The smallest timestamp of a non-empty table (`df['dt'].min()`). */
  function MinDt(s: seq<Row>): (m: int)
    requires |s| > 0
    ensures exists i :: 0 <= i < |s| && s[i].dt == m
    ensures forall i :: 0 <= i < |s| ==> m <= s[i].dt
  {
    if |s| == 1 then s[0].dt
    else
      var m := MinDt(s[1..]);
      assert forall i :: 1 <= i < |s| ==> s[i] == s[1..][i - 1];
      if s[0].dt <= m then s[0].dt else m
  }

  /** The largest timestamp of a non-empty table. */
  function MaxDt(s: seq<Row>): (m: int)
    requires |s| > 0
    ensures exists i :: 0 <= i < |s| && s[i].dt == m
    ensures forall i :: 0 <= i < |s| ==> s[i].dt <= m
  {
    if |s| == 1 then s[0].dt
    else
      var m := MaxDt(s[1..]);
      assert forall i :: 1 <= i < |s| ==> s[i] == s[1..][i - 1];
      if m <= s[0].dt then s[0].dt else m
  }

  /** The minimum timestamp of a table as pandas reports it: `NaT` when the table is empty. */
  function EarliestTime(s: seq<Row>): (c: Clock)
    ensures c.NaT? <==> s == []
    ensures c.At? ==> (exists i :: 0 <= i < |s| && s[i].dt == c.t) && forall i :: 0 <= i < |s| ==> c.t <= s[i].dt
  {
    if s == [] then NaT else At(MinDt(s))
  }

  /** A time-sorted table begins with its earliest row. */
  lemma SortedStartsAtMin(s: seq<Row>)
    requires SortedByTime(s) && |s| > 0
    ensures MinDt(s) == s[0].dt
  {
  }

  /** Sorting keeps the earliest timestamp: whatever order `sort_values` gives rows with equal
      timestamps, the clock `start` reads off the sorted stream is the minimum timestamp of the
      recording as loaded. */
  lemma SortingKeepsEarliest(r: seq<Row>, s: seq<Row>)
    requires IsTimeSortingOf(r, s)
    ensures EarliestTime(r) == EarliestTime(s)
  {
    if s != [] {
      SameRowsSameMin(r, s);
    } else {
      assert |r| == |multiset(r)| == 0;
    }
  }

  /** Every recording has a time sorting; `SortByTime` is one. */
  lemma TimeSortingExists(s: seq<Row>)
    ensures exists r :: IsTimeSortingOf(r, s)
  {
    var r := SortByTime(s);
    assert IsTimeSortingOf(r, s);
  }

  /** A time-sorted permutation of a non-empty table has the same earliest timestamp. */
  lemma SameRowsSameMin(r: seq<Row>, s: seq<Row>)
    requires SortedByTime(r) && multiset(r) == multiset(s) && |s| > 0
    ensures |r| > 0 && MinDt(r) == MinDt(s)
  {
    var j :| 0 <= j < |s| && s[j].dt == MinDt(s);
    assert s[j] in multiset(r);
    var l :| 0 <= l < |r| && r[l] == s[j];
    SortedStartsAtMin(r);
    assert r[0] in multiset(s);
    var k :| 0 <= k < |s| && s[k] == r[0];
  }
}

=== FILE: simulator.dfy ===
/**
 The replay engine: a clock over a recording sorted by timestamp. Every step moves the clock
 and moves the rows that have become due from the in-memory stream to the end of the
 append-only database. The database file, the recording file and their CSV round trips are
 modelled as row sequences.
 */
module Simulator {
  import opened Rows
  import opened Outcomes

  /** The state of a started simulator: the clock (`self.time`), the rows not yet emitted
      (`self.stream`) and the rows written to the database file so far. */
  datatype Replay = Replay(clock: Clock, stream: seq<Row>, db: seq<Row>)

  /** A simulator object before and after its first `start`. */
  datatype Sim = Unstarted | Started(replay: Replay)

  /** `step` before `start` finds no `self.time`; `read_db` before `start` finds no database file. */
  datatype Error = NotStarted | NoDatabase

  /** Adds a duration in seconds to the clock; `NaT` absorbs every duration. */
  function Advance(c: Clock, seconds: int): (r: Clock)
    ensures r.NaT? <==> c.NaT?
    ensures c.At? ==> r.t - c.t == seconds
  {
    match c
    case At(t) => At(t + seconds)
    case NaT => NaT
  }

  /** `dt <= self.time`; false against `NaT`. */
  predicate IsDue(row: Row, c: Clock)
  {
    c.At? && row.dt <= c.t
  }

  /** `dt > self.time`; false against `NaT`. */
  predicate IsPending(row: Row, c: Clock)
  {
    c.At? && row.dt > c.t
  }

  /** The rows of `s` selected by `dt <= clock`, in their order in `s`. */
  function Due(s: seq<Row>, c: Clock): (r: seq<Row>)
    ensures forall i :: 0 <= i < |r| ==> IsDue(r[i], c)
    ensures |r| <= |s|
  {
    if s == [] then []
    else if IsDue(s[0], c) then [s[0]] + Due(s[1..], c)
    else Due(s[1..], c)
  }

  /** The rows of `s` selected by `dt > clock`, in their order in `s`. */
  function Pending(s: seq<Row>, c: Clock): (r: seq<Row>)
    ensures forall i :: 0 <= i < |r| ==> IsPending(r[i], c)
    ensures |r| <= |s|
  {
    if s == [] then []
    else if IsPending(s[0], c) then [s[0]] + Pending(s[1..], c)
    else Pending(s[1..], c)
  }

  /** No row of `s` is due exactly when the due selection is empty. */
  lemma {:induction false} NoneDue(s: seq<Row>, c: Clock)
    ensures Due(s, c) == [] <==> forall i :: 0 <= i < |s| ==> !IsDue(s[i], c)
  {
    if s != [] {
      NoneDue(s[1..], c);
      assert forall i :: 1 <= i < |s| ==> s[i] == s[1..][i - 1];
    }
  }

  /** Against a real clock the two selections partition the rows: nothing is lost or duplicated. */
  lemma {:induction false} SelectionsPartition(s: seq<Row>, c: Clock)
    requires c.At?
    ensures multiset(Due(s, c)) + multiset(Pending(s, c)) == multiset(s)
  {
    if s != [] {
      var tail := s[1..];
      SelectionsPartition(tail, c);
      assert s == [s[0]] + tail;
      if IsDue(s[0], c) {
        assert Due(s, c) == [s[0]] + Due(tail, c);
        assert Pending(s, c) == Pending(tail, c);
      } else {
        assert Due(s, c) == Due(tail, c);
        assert Pending(s, c) == [s[0]] + Pending(tail, c);
      }
    }
  }

  /** On a time-sorted table the due rows are a prefix and the pending rows the matching suffix. */
  lemma {:induction false} SortedSplitsAtClock(s: seq<Row>, c: Clock)
    requires SortedByTime(s) && c.At?
    ensures Due(s, c) + Pending(s, c) == s
    ensures Due(s, c) == s[..|Due(s, c)|]
  {
    if s == [] {
    } else if IsDue(s[0], c) {
      TailSorted(s);
      SortedSplitsAtClock(s[1..], c);
      DueHeadSplit(s, c);
    } else {
      assert forall i :: 0 <= i < |s| ==> IsPending(s[i], c);
      NoneDue(s, c);
      AllPending(s, c);
    }
  }

  /** When the first row is due, the split of the whole table is that row followed by the
      split of the rest. */
  lemma DueHeadSplit(s: seq<Row>, c: Clock)
    requires |s| > 0 && IsDue(s[0], c)
    requires Due(s[1..], c) + Pending(s[1..], c) == s[1..]
    requires Due(s[1..], c) == s[1..][..|Due(s[1..], c)|]
    ensures Due(s, c) + Pending(s, c) == s
    ensures Due(s, c) == s[..|Due(s, c)|]
  {
    var tail := s[1..];
    var d, p := Due(tail, c), Pending(tail, c);
    assert Due(s, c) == [s[0]] + d;
    assert Pending(s, c) == p;
    assert s == [s[0]] + tail;
    assert [s[0]] + d + p == [s[0]] + (d + p);
    assert s[..|d| + 1] == [s[0]] + tail[..|d|];
  }

  /** Rows that are all later than the clock are all pending, in order. */
  lemma {:induction false} AllPending(s: seq<Row>, c: Clock)
    requires forall i :: 0 <= i < |s| ==> IsPending(s[i], c)
    ensures Pending(s, c) == s
  {
    if s != [] {
      assert forall i :: 1 <= i < |s| ==> s[i] == s[1..][i - 1];
      AllPending(s[1..], c);
    }
  }

  /** Rows that are all due are all selected, in order. */
  lemma {:induction false} AllDue(s: seq<Row>, c: Clock)
    requires forall i :: 0 <= i < |s| ==> IsDue(s[i], c)
    ensures Due(s, c) == s
  {
    if s != [] {
      assert forall i :: 1 <= i < |s| ==> s[i] == s[1..][i - 1];
      AllDue(s[1..], c);
    }
  }

  /** A table made of rows not later than the clock followed by rows later than it splits
      into exactly those two parts. */
  lemma {:induction false} SplitAt(a: seq<Row>, b: seq<Row>, c: Clock)
    requires forall i :: 0 <= i < |a| ==> IsDue(a[i], c)
    requires forall i :: 0 <= i < |b| ==> IsPending(b[i], c)
    ensures Due(a + b, c) == a
    ensures Pending(a + b, c) == b
  {
    if a == [] {
      assert a + b == b;
      NoneDue(b, c);
      AllPending(b, c);
    } else {
      assert (a + b)[1..] == a[1..] + b;
      assert forall i :: 1 <= i < |a| ==> a[i] == a[1..][i - 1];
      SplitAt(a[1..], b, c);
      assert a == [a[0]] + a[1..];
    }
  }

  /** `step(seconds)`: advance the clock, then, when some rows are due, append them to the
      database and keep only the rows that are still later than the clock. */
  function Step(r: Replay, seconds: int): (r': Replay)
    ensures r.clock.At? ==> r'.clock == At(r.clock.t + seconds)
    ensures r.clock.NaT? ==> r' == r
    ensures r.db <= r'.db
    ensures r'.db == r.db + Due(r.stream, r'.clock)
    ensures |r'.db| > |r.db| <==> exists i :: 0 <= i < |r.stream| && IsDue(r.stream[i], r'.clock)
    ensures |r'.db| == |r.db| ==> r'.stream == r.stream
    ensures |r'.db| > |r.db| ==> r'.stream == Pending(r.stream, r'.clock)
    ensures r'.clock.At? ==> forall i :: 0 <= i < |r'.stream| ==> r'.stream[i].dt > r'.clock.t
  {
    var clock := Advance(r.clock, seconds);
    var due := Due(r.stream, clock);
    NoneDue(r.stream, clock);
    if |due| > 0 then Replay(clock, Pending(r.stream, clock), r.db + due)
    else Replay(clock, r.stream, r.db)
  }

  /** A step neither loses nor duplicates a row, whatever the order of the stream. */
  lemma StepConservesRows(r: Replay, seconds: int)
    ensures var r' := Step(r, seconds); multiset(r'.db + r'.stream) == multiset(r.db + r.stream)
  {
    var r' := Step(r, seconds);
    if |r'.db| > |r.db| {
      var due, pending := Due(r.stream, r'.clock), Pending(r.stream, r'.clock);
      SelectionsPartition(r.stream, r'.clock);
      assert r'.db + r'.stream == r.db + due + pending;
      assert multiset(r.db + due + pending) == multiset(r.db) + multiset(due) + multiset(pending);
    }
  }

  /** The state `start` builds before its zero-second step: the recording sorted into the
      stream, the clock at the earliest timestamp read off it, and a database truncated to its
      header. `sorted` is the table `sort_values('dt')` returns for `recording`; the model fixes
      no order among rows with equal timestamps. */
  function Truncated(recording: seq<Row>, sorted: seq<Row>): (r: Replay)
    requires IsTimeSortingOf(sorted, recording)
    ensures r.stream == sorted
    ensures r.db == []
    ensures r.clock == EarliestTime(recording)
  {
    SortingKeepsEarliest(sorted, recording);
    Replay(EarliestTime(sorted), sorted, [])
  }

  /** `start()`: load and sort the recording, truncate the database, then step by zero seconds,
      which flushes every row stamped with the earliest timestamp. */
  function Start(recording: seq<Row>, sorted: seq<Row>): (r: Replay)
    requires IsTimeSortingOf(sorted, recording)
    ensures r.clock == EarliestTime(recording)
    ensures r.db + r.stream == sorted
    ensures forall i :: 0 <= i < |r.db| ==> r.db[i].dt == r.clock.t
    ensures r.clock.At? ==> forall i :: 0 <= i < |r.stream| ==> r.stream[i].dt > r.clock.t
    ensures |recording| > 0 ==> |r.db| > 0
  {
    ZeroStepFlushesEarliest(recording, sorted);
    Step(Truncated(recording, sorted), 0)
  }

  /** The zero-second step at the end of `start` moves exactly the rows stamped with the
      earliest timestamp into the database. */
  lemma ZeroStepFlushesEarliest(recording: seq<Row>, sorted: seq<Row>)
    requires IsTimeSortingOf(sorted, recording)
    ensures var r0 := Truncated(recording, sorted); var r := Step(r0, 0);
      && r.db + r.stream == r0.stream
      && (forall i :: 0 <= i < |r.db| ==> r.db[i].dt == r.clock.t)
      && (|recording| > 0 ==> |r.db| > 0)
  {
    var r0 := Truncated(recording, sorted);
    if recording != [] {
      SortedStartsAtMin(r0.stream);
      ZeroStepAtEarliest(r0);
    }
  }

  /** A zero-second step from an empty database, with the clock at the first timestamp of a
      non-empty sorted stream, flushes exactly the rows at that timestamp. */
  lemma ZeroStepAtEarliest(r0: Replay)
    requires r0.db == [] && SortedByTime(r0.stream) && |r0.stream| > 0
    requires r0.clock == At(r0.stream[0].dt)
    ensures var r := Step(r0, 0);
      && r.db + r.stream == r0.stream
      && (forall i :: 0 <= i < |r.db| ==> r.db[i].dt == r.clock.t)
      && |r.db| > 0
  {
    EarliestRowsDue(r0.stream);
    var r := Step(r0, 0);
    var c := r0.clock;
    assert r.clock == c;
    assert r.db == Due(r0.stream, c);
    assert r.stream == Pending(r0.stream, c);
  }

  /** Against a clock at its first timestamp, a non-empty time-sorted table has at least one
      due row, every due row carries that timestamp, and the due and pending rows split it. */
  lemma EarliestRowsDue(s: seq<Row>)
    requires SortedByTime(s) && |s| > 0
    ensures var c := At(s[0].dt);
      && Due(s, c) != []
      && (forall i :: 0 <= i < |Due(s, c)| ==> Due(s, c)[i].dt == s[0].dt)
      && Due(s, c) + Pending(s, c) == s
  {
    var c := At(s[0].dt);
    SortedSplitsAtClock(s, c);
    var d := Due(s, c);
    assert d == [s[0]] + Due(s[1..], c);
    forall i | 0 <= i < |d| ensures d[i].dt == s[0].dt {
      assert d[i] == s[i];
    }
  }

  /** `Simulator.start`, which replaces whatever state the object had. */
  function StartSim(recording: seq<Row>, sorted: seq<Row>): (s: Sim)
    requires IsTimeSortingOf(sorted, recording)
    ensures s.Started?
    ensures s.replay.clock == EarliestTime(recording)
    ensures s.replay.db + s.replay.stream == sorted
  {
    Started(Start(recording, sorted))
  }

  /** `Simulator.step`, which fails on an object that was never started. */
  function StepSim(s: Sim, seconds: int): (r: Result<Sim, Error>)
    ensures r.Ok? <==> s.Started?
    ensures r.Err? ==> r.error == NotStarted
    ensures r.Ok? ==> r.value.Started? && r.value.replay == Step(s.replay, seconds)
  {
    match s
    case Unstarted => Err(NotStarted)
    case Started(rep) => Ok(Started(Step(rep, seconds)))
  }

  /** `Simulator.read_db`: the whole database, or a failure when no database file exists. */
  function ReadDb(s: Sim): (r: Result<seq<Row>, Error>)
    ensures r.Ok? <==> s.Started?
    ensures r.Err? ==> r.error == NoDatabase
    ensures r.Ok? ==> r.value == s.replay.db
  {
    match s
    case Unstarted => Err(NoDatabase)
    case Started(rep) => Ok(rep.db)
  }
}
